=== FILE: README.md ===
# AI course builder: client-side course authoring state, in Dafny

This project models the client-side state logic of an AI-assisted course-authoring
web application. An educator fills in course information, an AI service generates a
course outline, and the educator reviews it and saves it as a draft course.

What is modelled:

- **The course record tree** (`CourseTypes`): Course → CourseOutline → CourseModule →
  CourseLesson / CourseAssessment → question, with their enumerations. Optional
  fields are `Option`s. Level strings map to levels through `LevelName`/`ParseLevel`.
- **The `course` store slice** (`CourseSlice`, with lemmas in `CourseSliceProps`):
  - the state is the course list, the current course, the outline being edited,
    `loading` and `error`;
  - the synchronous reducers edit the outline's module list and the current course;
  - six asynchronous operations (fetch list, fetch one, create, update, delete,
    generate outline) each go through pending, fulfilled and rejected cases;
  - the thunks map a network failure to a rejection message;
  - list-cache policies: fetch replaces, create appends, update replaces the first
    course with the same id, delete filters by id.
- **The `ui` store slice** (`UiSlice`): the drawer flag and the single notification.
- **The builder wizard** (`CourseBuilder`, with invariants in `CourseBuilderProps`):
  - `activeStep` runs over 0 (information), 1 (generate) and 2 (review and save);
  - the handlers are `handleNext`, `handleBack`, `handleInputChange`,
    `handleGenerateOutline` and `handleSaveCourse`;
  - a disabled button produces no event.

The network is not modelled. When a handler dispatches a thunk, the thunk's result
is an input (`Response<T>`: a payload, or a failure with an optional server
message). The thunk's pending action and its settling action are then applied in
order, so the model handles one event at a time. The requests a handler sends and
the path it navigates to are outputs (`After`).

Modules are not renumbered on insert or remove, so `order` values need not stay
contiguous: `CourseSliceProps.RemoveDoesNotRenumber` shows that removing the middle
of modules ordered 0, 1, 2 leaves orders 0, 2. The code also does not validate
outlines before saving, and does not distinguish repository errors (every failure
becomes a message string). It does not fence generation requests either: the only
guard is that Next and Generate are disabled while the slice's shared `loading` flag
is set, and any course operation that settles clears that flag.

The store outlives the builder page and no reducer ever clears the outline, so the
builder is modelled as mounted on whatever the session's store holds
(`CourseBuilder.OpenPage`), not only on a fresh store.

## Model

| member | source | states |
|---|---|---|
| CourseTypes.ParseLevel | frontend/src/types/Course.ts:6 | a string is a course level exactly when it is "beginner", "intermediate" or "advanced", and the level read back is written as that string |
| CourseTypes.LevelNameRoundTrip | frontend/src/types/Course.ts:6 | every level survives the trip through its string literal; distinct levels have distinct literals |
| CourseSlice.InitialState | frontend/src/store/slices/courseSlice.ts:13-19 | the slice starts with no courses, no current course, no outline, not loading and no error |
| CourseSlice.RejectionMessage | frontend/src/store/slices/courseSlice.ts:21-91 | a rejection carries the server's message when it is present and non-empty, otherwise the operation's own "Failed to …" message; it is never empty |
| CourseSlice.FetchCoursesThunk | frontend/src/store/slices/courseSlice.ts:21-31 | the fetch-list thunk fulfils with the fetched list exactly when the call succeeds; otherwise it rejects with the server message, or "Failed to fetch courses" when that is absent or empty |
| CourseSlice.FetchCourseByIdThunk | frontend/src/store/slices/courseSlice.ts:33-43 | the fetch-one thunk fulfils with the fetched course exactly when the call succeeds; otherwise it rejects with the server message, or "Failed to fetch course" |
| CourseSlice.CreateCourseThunk | frontend/src/store/slices/courseSlice.ts:45-55 | the create thunk fulfils with the server's course exactly when the call succeeds; otherwise it rejects with the server message, or "Failed to create course" |
| CourseSlice.UpdateCourseThunk | frontend/src/store/slices/courseSlice.ts:57-67 | the update thunk fulfils with the server's course exactly when the call succeeds; otherwise it rejects with the server message, or "Failed to update course" |
| CourseSlice.DeleteCourseThunk | frontend/src/store/slices/courseSlice.ts:69-79 | the delete thunk fulfils with the id it was given (not a response body) exactly when the call succeeds; otherwise it rejects with the server message, or "Failed to delete course" |
| CourseSlice.GenerateCourseOutlineThunk | frontend/src/store/slices/courseSlice.ts:81-91 | the generation thunk fulfils with the generated outline exactly when the call succeeds; otherwise it rejects with the server message, or "Failed to generate course outline" |
| CourseSlice.FindIndexById | frontend/src/store/slices/courseSlice.ts:174 | the result is -1 exactly when no course has the id; otherwise it is a position holding the id with no earlier position holding it |
| CourseSlice.ReplaceFirstById | frontend/src/store/slices/courseSlice.ts:174-177 | the length is kept; the first course with the payload's id becomes the payload and all others stay; with no match the list is unchanged |
| CourseSlice.WithoutId | frontend/src/store/slices/courseSlice.ts:191 | a course survives the filter exactly when it was in the list with a different id; the list never grows |
| CourseSlice.ReplaceModule | frontend/src/store/slices/courseSlice.ts:108 | assigning an in-range index replaces that module only and keeps the length |
| CourseSlice.AppendModule | frontend/src/store/slices/courseSlice.ts:113 | pushing adds the module last and keeps every earlier module in place |
| CourseSlice.RemoveModule | frontend/src/store/slices/courseSlice.ts:118 | splicing one in-range index removes that module; later modules shift down one place and keep their `order` fields |
| CourseSlice.SetCurrentCourseCase | frontend/src/store/slices/courseSlice.ts:97-99 | the given course becomes current and nothing else changes |
| CourseSlice.ClearCurrentCourseCase | frontend/src/store/slices/courseSlice.ts:100-102 | there is no current course afterwards and nothing else changes |
| CourseSlice.SetCurrentOutlineCase | frontend/src/store/slices/courseSlice.ts:103-105 | the given outline becomes the edit buffer and nothing else changes |
| CourseSlice.UpdateModuleCase | frontend/src/store/slices/courseSlice.ts:106-110 | with an outline, exactly module i is replaced (same length, other modules and outline fields unchanged); without one, a no-op; the rest of the state is untouched |
| CourseSlice.AddModuleCase | frontend/src/store/slices/courseSlice.ts:111-115 | with an outline, the module list grows by one with the new module last and the old ones as a prefix; without one, a no-op |
| CourseSlice.RemoveModuleCase | frontend/src/store/slices/courseSlice.ts:116-120 | with an outline, module i is dropped and the rest keep their order; without one, a no-op; the rest of the state is untouched |
| CourseSlice.ClearErrorCase | frontend/src/store/slices/courseSlice.ts:121-123 | the error is cleared and nothing else changes |
| CourseSlice.PendingCase | frontend/src/store/slices/courseSlice.ts:128-131 | a pending case sets loading, clears the error and leaves courses, current course and outline unchanged |
| CourseSlice.RejectedCase | frontend/src/store/slices/courseSlice.ts:136-139 | a rejected case stops loading, records the message and leaves courses, current course and outline unchanged |
| CourseSlice.FetchCoursesFulfilledCase | frontend/src/store/slices/courseSlice.ts:132-135 | the fetched list replaces the cache; loading stops; nothing else changes, the error included |
| CourseSlice.FetchCourseByIdFulfilledCase | frontend/src/store/slices/courseSlice.ts:145-148 | the fetched course becomes current; loading stops; the list and the rest are unchanged |
| CourseSlice.CreateCourseFulfilledCase | frontend/src/store/slices/courseSlice.ts:158-162 | the created course is appended after the old list and becomes current; nothing else changes |
| CourseSlice.UpdateCourseFulfilledCase | frontend/src/store/slices/courseSlice.ts:172-179 | the first course with the payload's id is replaced in place (length kept; list unchanged if no id matches) and the payload always becomes current |
| CourseSlice.DeleteCourseFulfilledCase | frontend/src/store/slices/courseSlice.ts:189-195 | no course with the id remains, every other course remains, and the current course is cleared exactly when it had that id |
| CourseSlice.GenerateOutlineFulfilledCase | frontend/src/store/slices/courseSlice.ts:205-208 | the generated outline becomes the edit buffer; loading stops; nothing else changes |
| CourseSliceProps.WithoutIdAppend | frontend/src/store/slices/courseSlice.ts:191 | the delete filter distributes over concatenation |
| CourseSliceProps.WithoutIdNoMatch | frontend/src/store/slices/courseSlice.ts:191 | filtering an id no course has returns the list unchanged |
| CourseSliceProps.DeleteIdempotent | frontend/src/store/slices/courseSlice.ts:189-195 | deleting the same id twice equals deleting it once |
| CourseSliceProps.DeleteKeepsRelativeOrder | frontend/src/store/slices/courseSlice.ts:191 | the survivors of a delete keep their relative order: for any split point, the result is the survivors of the front followed by those of the back |
| CourseSliceProps.CreateThenDeleteRestoresList | frontend/src/store/slices/courseSlice.ts:158-195 | deleting a just-created course with a fresh id restores the list and clears the current course |
| CourseSliceProps.UpdateCachesIffIdKnown | frontend/src/store/slices/courseSlice.ts:172-179 | after an update the payload is in the list exactly when some cached course already had its id |
| CourseSliceProps.UpdateIdempotent | frontend/src/store/slices/courseSlice.ts:172-179 | applying the same update twice equals applying it once |
| CourseSliceProps.AddThenRemoveLastRestores | frontend/src/store/slices/courseSlice.ts:111-120 | removing the module just appended restores the state |
| CourseSliceProps.UpdateModuleUndo | frontend/src/store/slices/courseSlice.ts:106-110 | writing the old module back at the same index undoes an update |
| CourseSliceProps.RemoveDoesNotRenumber | frontend/src/store/slices/courseSlice.ts:116-120 | removing the middle of modules ordered 0, 1, 2 leaves orders 0, 2 (no renumbering) |
| CourseSliceProps.PendingUniform | frontend/src/store/slices/courseSlice.ts:125-212 | all six pending cases have the same effect: loading on, error cleared, data unchanged |
| CourseSliceProps.PendingThenRejected | frontend/src/store/slices/courseSlice.ts:125-212 | a rejected attempt leaves the cached data as before it started, loading off and a non-empty error |
| CourseSliceProps.FulfilledLeavesError | frontend/src/store/slices/courseSlice.ts:125-212 | fulfilled cases stop loading and never touch the error; after the matching pending case the error is cleared |
| CourseSliceProps.OutlineNeverCleared | frontend/src/store/slices/courseSlice.ts:96-212 | no action removes an outline buffer once one exists |
| CourseSliceProps.OutlineFrame | frontend/src/store/slices/courseSlice.ts:96-212 | only outline edits and a fulfilled generation change the outline buffer |
| CourseSliceProps.ThunkFailuresReachStore | frontend/src/store/slices/courseSlice.ts:21-212 | for each of the six thunks, a failure after its pending case leaves the data exactly as before, loading off, and the mapped rejection message as the error |
| CourseSliceProps.ThunkSuccessesReachStore | frontend/src/store/slices/courseSlice.ts:21-212 | for each of the six thunks, a success after its pending case is that operation's fulfilled case applied to the pending state |
| UiSlice.InitialState | frontend/src/store/slices/uiSlice.ts:12-19 | the drawer and the notification start closed, with an empty message of type info |
| UiSlice.SetDrawerOpen | frontend/src/store/slices/uiSlice.ts:25-27 | the drawer takes the given value and the notification is unchanged |
| UiSlice.ShowNotification | frontend/src/store/slices/uiSlice.ts:28-32 | the notification opens with the given message and type and the drawer is unchanged |
| UiSlice.HideNotification | frontend/src/store/slices/uiSlice.ts:33-35 | the notification closes; its message, its type and the drawer are kept |
| UiSlice.HideIdempotent | frontend/src/store/slices/uiSlice.ts:33-35 | hiding twice equals hiding once |
| UiSlice.ShowThenHide | frontend/src/store/slices/uiSlice.ts:28-35 | showing then hiding leaves a closed notification that still holds the shown message and type |
| UiSlice.DrawerCommutesWithNotification | frontend/src/store/slices/uiSlice.ts:25-35 | drawer updates commute with showing and hiding notifications |
| UiSlice.LastShowWins | frontend/src/store/slices/uiSlice.ts:28-32 | a second notification fully replaces the first |
| CourseBuilder.InitialInfo | frontend/src/pages/CourseBuilderPage.tsx:41-48 | the form starts empty with level "beginner" |
| CourseBuilder.InitialPage | frontend/src/pages/CourseBuilderPage.tsx:38-48 | the first visit of a session: step 0, the initial form, and both slices exactly in their initial states (no courses, no current course, no outline, not loading, no error) |
| CourseBuilder.OpenPage | frontend/src/pages/CourseBuilderPage.tsx:36-48 | mounting the builder resets the step and the form but keeps both store slices exactly as the session left them |
| CourseBuilder.OpenPageIntended | frontend/src/pages/CourseBuilderPage.tsx:36-48 | the corrected mount discards the previous outline and error and keeps the rest of the store |
| CourseBuilder.HandleInputChange | frontend/src/pages/CourseBuilderPage.tsx:81-87 | the named field takes the new value and every other field is unchanged |
| CourseBuilder.AssembleCourse | frontend/src/pages/CourseBuilderPage.tsx:103-112 | the saved record is a draft holding the current outline, the form's fields, and tags [category, level] |
| CourseBuilder.HandleGenerateOutline | frontend/src/pages/CourseBuilderPage.tsx:89-98 | sends (topic, level, duration); stores the outline on success, or on failure keeps the outline and stores the mapped rejection message (the server's message, else "Failed to generate course outline"); advances one step exactly when the error read before the dispatch was null |
| CourseBuilder.HandleGenerateOutlineIntended | frontend/src/pages/CourseBuilderPage.tsx:89-98 | the corrected handler advances one step exactly when the generation was fulfilled; everything else is as written |
| CourseBuilder.HandleSaveCourse | frontend/src/pages/CourseBuilderPage.tsx:100-122 | without an outline nothing happens; otherwise it sends the assembled draft. On success it appends and selects the course, clears the error, shows the success notification (drawer untouched) and navigates to /courses/id. On failure it stores the create rejection message and keeps the list, the current course and the ui. Whenever a request is sent, nothing is loading afterwards. The step never changes |
| CourseBuilder.HandleNext | frontend/src/pages/CourseBuilderPage.tsx:50-75 | step 0 with an empty required field stays put and shows an error notification; step 0 otherwise goes to 1; step 1 without an outline generates; step 1 with one goes to 2; step 2 saves |
| CourseBuilder.HandleBack | frontend/src/pages/CourseBuilderPage.tsx:77-79 | the step goes back one and nothing else changes |
| CourseBuilder.Step | frontend/src/pages/CourseBuilderPage.tsx:325-341 | a disabled control does nothing; enabled Next, Back, Generate and field edits run handleNext, handleBack, handleGenerateOutline and handleInputChange respectively; edits and Back send no request and do not navigate |
| CourseBuilder.StepIntended | frontend/src/pages/CourseBuilderPage.tsx:89-98 | the corrected wizard differs from the written one only in the generation continuation |
| CourseBuilderProps.InitialPageInvariants | frontend/src/pages/CourseBuilderPage.tsx:38-48 | the builder opened on any session store that is not loading (as written or with the corrected mount), and the first visit in particular, satisfies both wizard invariants |
| CourseBuilderProps.StepPreservesWellFormed | frontend/src/pages/CourseBuilderPage.tsx:50-87 | as written, every event keeps the step in 0..2 (Back is disabled on step 0), the level one of the three names, the required fields filled beyond step 0, and nothing loading |
| CourseBuilderProps.StepIntendedPreservesWellFormed | frontend/src/pages/CourseBuilderPage.tsx:50-98 | the corrected wizard keeps the same invariant |
| CourseBuilderProps.StepIntendedKeepsOutlineReady | frontend/src/pages/CourseBuilderPage.tsx:62-74 | with the corrected continuation, step 2 is only reached with an outline present |
| CourseBuilderProps.RunIntendedInvariants | frontend/src/pages/CourseBuilderPage.tsx:50-98 | both invariants hold after any sequence of events of the corrected wizard |
| CourseBuilderProps.StaleErrorAdvancesWithoutOutline | frontend/src/pages/CourseBuilderPage.tsx:95-97 | as written, a failed generation from a clean store still advances to step 2, which then has no outline |
| CourseBuilderProps.StaleErrorHoldsBackSuccessfulRetry | frontend/src/pages/CourseBuilderPage.tsx:95-97 | as written, once an error is stored, a successful retry fills the outline but does not advance (handler state only; the step-1 render with an outline uses the unimported `Alert`) |
| CourseBuilderProps.EmptyTopicNeverReachesGateway | frontend/src/pages/CourseBuilderPage.tsx:50-66 | on step 0 an empty topic blocks Next and sends nothing; every generation request from a well-formed page has a non-empty topic |
| CourseBuilderProps.SavedCourseIsDraft | frontend/src/pages/CourseBuilderPage.tsx:100-114 | every save request is a draft holding the outline under review, with a valid level name, tags [category, level] and non-empty title, description and category |
| CourseBuilderProps.GeneratedOutlineReviewedUnchanged | frontend/src/pages/CourseBuilderPage.tsx:62-66 | with the corrected continuation, a generated outline reaches step 2 unchanged |
| CourseBuilderProps.ReopenedBuilderSkipsGeneration | frontend/src/pages/CourseBuilderPage.tsx:62-74 | as written, a builder reopened on a store that holds an outline goes from step 1 to step 2 without generating, and Next there saves the previous outline (handler state only; the step-1 render with an outline uses the unimported `Alert`) |
| CourseBuilderProps.ReopenedIntendedGeneratesFirst | frontend/src/pages/CourseBuilderPage.tsx:62-66 | with the corrected mount, Next on step 1 of a reopened builder sends a generation request and reaches step 2 only if it succeeds |

## Left out

- The HTTP services (`courseService.ts`, `authService.ts`), bearer tokens, `localStorage` and environment configuration are not part of this model. Thunk results are the `Response` input.
- Interleaving of thunks is not modelled; the model handles one event at a time. Between events nothing is loading, so the loading guards on Next and Generate are never exercised. Neither is the race where an older response overwrites newer data.
- CourseSlice.UpdateModuleCase: requires an in-range index when an outline is present. JavaScript's out-of-range and negative array assignment is not modelled.
- CourseSlice.RemoveModuleCase: requires an in-range index when an outline is present. `splice` with an out-of-range or negative index is not modelled.
- CourseSlice.ReplaceModule: needs an in-range index for the same reason.
- CourseSlice.RemoveModule: needs an in-range index for the same reason.
- JavaScript `number` fields (`order`, `passingScore`, `points`) are `int`; fractional values are not modelled.
- CourseBuilder.HandleInputChange: only the six input names the form renders are modelled. An arbitrary `name` adding a new key to `courseInfo` is not.
- A rejection payload that is not a string is not modelled. The server message is an optional string.
- Rendering is not modelled. In particular, the step-1 render at `frontend/src/pages/CourseBuilderPage.tsx:232-236` uses `Alert`, which the import list at :7-31 does not name. The `activeStep === 1 && currentOutline` branch of `handleNext` (:62, :74) is therefore reachable in a running page only if that render does not throw. The model takes the handlers as written and assumes the page renders.
- `navigate` is an output of the handler (`After.navigateTo`), not a routing model.
- JSX rendering, Material UI, `App.tsx` routing, `theme.ts`, `HomePage.tsx`, `LoginPage.tsx` (Formik/Yup validation), `store/index.ts`, `types/User.ts` and the NestJS backend bootstrap are not part of this model.

## Findings

| source | as written | input that shows it | evidently intended | confidence | as-written member | corrected member |
|---|---|---|---|---|---|---|
| frontend/src/pages/CourseBuilderPage.tsx:95 | after awaiting the generation thunk, the handler advances when `error` is null. That `error` was read at the render before the dispatch, so the thunk's own outcome is ignored | step 1, no outline, no stored error, generation rejected: the wizard moves to step 2 with no outline (`CourseBuilderProps.StaleErrorAdvancesWithoutOutline`). Conversely, after one failure a successful retry stays on step 1 (`CourseBuilderProps.StaleErrorHoldsBackSuccessfulRetry`); the handler state is as stated, but rendering step 1 with that outline reaches the unimported `Alert` at :233 (see "## Left out") | advance exactly when the generation was fulfilled, so step 2 always has an outline (`CourseBuilderProps.StepIntendedKeepsOutlineReady`, `CourseBuilderProps.RunIntendedInvariants`) | not executed; high | CourseBuilder.HandleGenerateOutline | CourseBuilder.HandleGenerateOutlineIntended |
| frontend/src/pages/CourseBuilderPage.tsx:38 | the page reads `currentOutline` and `error` from the session store, which no reducer resets, and nothing clears them when the builder mounts | generate and save a course, then open the builder again: after step 0, Next on step 1 goes straight to review without generating, and saving submits the previous outline (`CourseBuilderProps.ReopenedBuilderSkipsGeneration`). The handler logic is as stated, but step 1 rendered with an outline reaches the unimported `Alert` at :233, so the user-visible effect needs that render not to throw | each visit starts a fresh outline, so step 1 generates before review (`CourseBuilderProps.ReopenedIntendedGeneratesFirst`) | not executed; low | CourseBuilder.OpenPage | CourseBuilder.OpenPageIntended |

=== FILE: course_builder.dfy ===
/** The three-step course builder wizard: course information, outline generation,
    review and save. A page state is the wizard's own state (`activeStep` and the
    form) together with the two store slices it reads and dispatches to. One user
    event is handled at a time; when an event dispatches a thunk, the network
    result is an input and the thunk's pending and settling actions are applied
    in order. */
module CourseBuilder {
  import opened Wrappers
  import opened CourseTypes
  import opened CourseSlice
  import UI = UiSlice

  /** The index of the last step ("Review & Save"). */
  const LastStep := 2

  const RequiredFieldsMessage := "Please fill all required fields"
  const CreatedMessage := "Course created successfully!"
  const CoursesPath := "/courses/"

  /** The names of the form's inputs. */
  datatype Field =
    | TitleField
    | DescriptionField
    | CategoryField
    | LevelField
    | EstimatedDurationField
    | TopicField

  /** The form state `courseInfo`; `level` is the string the level select holds. */
  datatype CourseInfo = CourseInfo(
    title: string,
    description: string,
    category: string,
    level: string,
    estimatedDuration: string,
    topic: string)

  /** The form as first rendered: everything empty, level `beginner`. */
  function InitialInfo(): (info: CourseInfo)
    ensures info.title == [] && info.description == [] && info.category == []
    ensures info.estimatedDuration == [] && info.topic == []
    ensures ParseLevel(info.level) == Some(Beginner)
  {
    CourseInfo("", "", "", "beginner", "", "")
  }

  /** The value the form holds for a field. */
  function FieldValue(info: CourseInfo, f: Field): string
  {
    match f
    case TitleField => info.title
    case DescriptionField => info.description
    case CategoryField => info.category
    case LevelField => info.level
    case EstimatedDurationField => info.estimatedDuration
    case TopicField => info.topic
  }

  /** `handleInputChange`: the named field takes the new value and no other field changes. */
  function HandleInputChange(info: CourseInfo, f: Field, v: string): (r: CourseInfo)
    ensures FieldValue(r, f) == v
    ensures forall g :: g != f ==> FieldValue(r, g) == FieldValue(info, g)
  {
    match f
    case TitleField => info.(title := v)
    case DescriptionField => info.(description := v)
    case CategoryField => info.(category := v)
    case LevelField => info.(level := v)
    case EstimatedDurationField => info.(estimatedDuration := v)
    case TopicField => info.(topic := v)
  }

  /** The step-0 guard: a required field (title, description, category, topic) is
      empty. The estimated duration is not required. */
  predicate MissingRequired(info: CourseInfo)
  {
    info.title == [] || info.description == [] || info.category == [] || info.topic == []
  }

  /** The partial course record the wizard sends to be created. Its `level` is the
      form's string, cast without a check. */
  datatype NewCourse = NewCourse(
    title: string,
    description: string,
    category: string,
    level: string,
    estimatedDuration: string,
    status: Status,
    outline: CourseOutline,
    tags: seq<string>)

  /** The record `handleSaveCourse` assembles: a draft carrying the edited outline,
      the form's fields, and the category and level as its two tags. */
  function AssembleCourse(info: CourseInfo, outline: CourseOutline): (c: NewCourse)
    ensures c.status == Draft && c.outline == outline
    ensures c.tags == [info.category, info.level]
    ensures c.title == info.title && c.description == info.description
    ensures c.category == info.category && c.level == info.level
    ensures c.estimatedDuration == info.estimatedDuration
  {
    NewCourse(info.title, info.description, info.category, info.level,
              info.estimatedDuration, Draft, outline, [info.category, info.level])
  }

  /** A request that leaves the client. */
  datatype Request =
    | GenerateOutlineRequest(topic: string, level: string, duration: string)
    | CreateCourseRequest(draft: NewCourse)

  datatype Page = Page(activeStep: int, info: CourseInfo, course: CourseState, ui: UI.UiState)

  /** The network results the thunks a handler dispatches would receive. */
  datatype Replies = Replies(generated: Response<CourseOutline>, created: Response<Course>)

  /** The page after a handler, the request it sent, and where it navigated. */
  datatype After = After(page: Page, request: Option<Request>, navigateTo: Option<string>)

  /** The page as the builder route mounts it: the wizard's own state starts over
      (step 0, empty form) while the store slices are whatever the session's store
      holds, including an outline and an error left by an earlier visit, since no
      reducer ever clears the outline. */
  function OpenPage(course: CourseState, ui: UI.UiState): (p: Page)
    ensures p.activeStep == 0 && p.info == InitialInfo()
    ensures p.course == course && p.ui == ui
  {
    Page(0, InitialInfo(), course, ui)
  }

  /** The first visit of a session: both slices are still in their initial states. */
  function InitialPage(): (p: Page)
    ensures p.activeStep == 0 && p.info == InitialInfo()
    ensures p.course == CourseSlice.InitialState() && p.ui == UI.InitialState()
    ensures p.course.currentOutline.None? && p.course.error.None? && !p.course.loading
    ensures p.course.courses == [] && p.course.currentCourse.None?
  {
    OpenPage(CourseSlice.InitialState(), UI.InitialState())
  }

  /** Mounting the builder with the edit buffer and the last error discarded, so
      that every visit starts a fresh outline; the rest of the store is kept. */
  function OpenPageIntended(course: CourseState, ui: UI.UiState): (p: Page)
    ensures p.activeStep == 0 && p.info == InitialInfo() && p.ui == ui
    ensures p.course.currentOutline.None? && p.course.error.None?
    ensures p.course.courses == course.courses && p.course.currentCourse == course.currentCourse
    ensures p.course.loading == course.loading
  {
    OpenPage(course.(currentOutline := None, error := None), ui)
  }

  /** `handleGenerateOutline` as written: it dispatches the generation thunk, then
      advances when the `error` read at the previous render was null. That value
      predates the dispatch, so the step moves on or not regardless of how the
      generation ended. */
  function HandleGenerateOutline(p: Page, resp: Response<CourseOutline>): (r: After)
    ensures r.request == Some(GenerateOutlineRequest(p.info.topic, p.info.level, p.info.estimatedDuration))
    ensures r.navigateTo.None?
    ensures r.page.activeStep == p.activeStep + 1 <==> p.course.error.None?
    ensures r.page.activeStep == p.activeStep || r.page.activeStep == p.activeStep + 1
    ensures resp.Ok? ==> r.page.course.currentOutline == Some(resp.value) && r.page.course.error.None?
    ensures resp.Failed? ==>
      && r.page.course.currentOutline == p.course.currentOutline
      && r.page.course.error == Some(RejectionMessage(GenerateCourseOutline, resp.serverMessage))
    ensures !r.page.course.loading
    ensures r.page.course.courses == p.course.courses && r.page.course.currentCourse == p.course.currentCourse
    ensures r.page.info == p.info && r.page.ui == p.ui
  {
    var errorAtRender := p.course.error;
    var settled := Reduce(Reduce(p.course, Pending(GenerateCourseOutline)), GenerateCourseOutlineThunk(resp));
    var step := if errorAtRender.None? then p.activeStep + 1 else p.activeStep;
    After(p.(course := settled, activeStep := step),
          Some(GenerateOutlineRequest(p.info.topic, p.info.level, p.info.estimatedDuration)),
          None)
  }

  /** The same handler advancing on the outcome of the dispatch it awaited: the
      step moves on exactly when the generation was fulfilled. */
  function HandleGenerateOutlineIntended(p: Page, resp: Response<CourseOutline>): (r: After)
    ensures r.page.activeStep == p.activeStep + 1 <==> resp.Ok?
    ensures r.page.activeStep == p.activeStep || r.page.activeStep == p.activeStep + 1
    ensures r.page.(activeStep := p.activeStep) == HandleGenerateOutline(p, resp).page.(activeStep := p.activeStep)
    ensures r.request == HandleGenerateOutline(p, resp).request && r.navigateTo.None?
  {
    var written := HandleGenerateOutline(p, resp);
    var step := if resp.Ok? then p.activeStep + 1 else p.activeStep;
    written.(page := written.page.(activeStep := step))
  }

  /** `handleSaveCourse`: without an outline nothing happens. Otherwise the
      assembled draft is sent; on success a confirmation is shown and the page
      navigates to the new course; on failure only the store's error records it.
      The step never changes. */
  function HandleSaveCourse(p: Page, resp: Response<Course>): (r: After)
    ensures p.course.currentOutline.None? ==> r == After(p, None, None)
    ensures p.course.currentOutline.Some? ==>
      r.request == Some(CreateCourseRequest(AssembleCourse(p.info, p.course.currentOutline.value)))
    ensures r.page.activeStep == p.activeStep && r.page.info == p.info
    ensures r.page.course.currentOutline == p.course.currentOutline
    ensures r.navigateTo.Some? <==> p.course.currentOutline.Some? && resp.Ok?
    ensures r.navigateTo.Some? ==>
      && r.navigateTo.value == CoursesPath + resp.value.id
      && r.page.course.currentCourse == Some(resp.value)
      && r.page.course.courses == p.course.courses + [resp.value]
      && r.page.ui == UI.ShowNotification(p.ui, CreatedMessage, UI.Success)
      && r.page.course.error.None?
    ensures p.course.currentOutline.Some? && resp.Failed? ==>
      && r.page.ui == p.ui
      && r.page.course.courses == p.course.courses
      && r.page.course.currentCourse == p.course.currentCourse
      && r.page.course.error == Some(RejectionMessage(CreateCourse, resp.serverMessage))
    ensures p.course.currentOutline.Some? ==> !r.page.course.loading
    ensures !p.course.loading ==> !r.page.course.loading
  {
    match p.course.currentOutline
    case None => After(p, None, None)
    case Some(outline) =>
      var draft := AssembleCourse(p.info, outline);
      var settled := Reduce(Reduce(p.course, Pending(CreateCourse)), CreateCourseThunk(resp));
      match resp
      case Ok(created) =>
        After(p.(course := settled, ui := UI.ShowNotification(p.ui, CreatedMessage, UI.Success)),
              Some(CreateCourseRequest(draft)),
              Some(CoursesPath + created.id))
      case Failed(_) =>
        After(p.(course := settled), Some(CreateCourseRequest(draft)), None)
  }

  /** `handleNext`. Step 0 refuses to advance, with an error notification, while a
      required field is empty; step 1 without an outline generates one instead of
      advancing; step 2 saves instead of advancing; otherwise the step advances. */
  function HandleNext(p: Page, replies: Replies): (r: After)
    ensures p.activeStep == 0 && MissingRequired(p.info) ==>
      && r.page == p.(ui := r.page.ui)
      && r.page.ui.notification == UI.Notification(true, RequiredFieldsMessage, UI.Error)
      && r.page.ui.drawerOpen == p.ui.drawerOpen
      && r.request.None? && r.navigateTo.None?
    ensures p.activeStep == 0 && !MissingRequired(p.info) ==> r == After(p.(activeStep := 1), None, None)
    ensures p.activeStep == 1 && p.course.currentOutline.None? ==>
      r == HandleGenerateOutline(p, replies.generated)
    ensures p.activeStep == 1 && p.course.currentOutline.Some? ==> r == After(p.(activeStep := 2), None, None)
    ensures p.activeStep == LastStep ==> r == HandleSaveCourse(p, replies.created)
    ensures r.page.info == p.info
  {
    if p.activeStep == 0 && MissingRequired(p.info) then
      After(p.(ui := UI.ShowNotification(p.ui, RequiredFieldsMessage, UI.Error)), None, None)
    else if p.activeStep == 1 && p.course.currentOutline.None? then
      HandleGenerateOutline(p, replies.generated)
    else if p.activeStep == LastStep then
      HandleSaveCourse(p, replies.created)
    else
      After(p.(activeStep := p.activeStep + 1), None, None)
  }

  /** `handleBack`: one step back, nothing else. */
  function HandleBack(p: Page): (r: Page)
    ensures r.activeStep == p.activeStep - 1
    ensures r.(activeStep := p.activeStep) == p
  {
    p.(activeStep := p.activeStep - 1)
  }

  /** What the user can do on the page. */
  datatype Event =
    | NextClicked
    | BackClicked
    | GenerateClicked
    | FieldEdited(field: Field, value: string)

  /** Whether the control behind an event is there and enabled: Next is disabled
      while loading; Back is disabled on step 0; the Generate button exists only on
      step 1 and is disabled while loading; the form exists only on step 0, and its
      level select offers only the three level names. */
  predicate Enabled(p: Page, e: Event)
  {
    match e
    case NextClicked => !p.course.loading
    case BackClicked => p.activeStep != 0
    case GenerateClicked => p.activeStep == 1 && !p.course.loading
    case FieldEdited(f, v) => p.activeStep == 0 && (f == LevelField ==> ParseLevel(v).Some?)
  }

  /** One event on the page, as written. A disabled control does nothing. */
  function Step(p: Page, e: Event, replies: Replies): (r: After)
    ensures !Enabled(p, e) ==> r == After(p, None, None)
    ensures Enabled(p, e) && e.GenerateClicked? ==> r == HandleGenerateOutline(p, replies.generated)
    ensures Enabled(p, e) && e.NextClicked? ==> r == HandleNext(p, replies)
    ensures Enabled(p, e) && e.BackClicked? ==> r == After(HandleBack(p), None, None)
    ensures Enabled(p, e) && e.FieldEdited? ==>
      r == After(p.(info := HandleInputChange(p.info, e.field, e.value)), None, None)
    ensures e.FieldEdited? || e.BackClicked? ==> r.request.None? && r.navigateTo.None?
  {
    if !Enabled(p, e) then After(p, None, None)
    else
      match e
      case NextClicked => HandleNext(p, replies)
      case BackClicked => After(HandleBack(p), None, None)
      case GenerateClicked => HandleGenerateOutline(p, replies.generated)
      case FieldEdited(f, v) => After(p.(info := HandleInputChange(p.info, f, v)), None, None)
  }

  /** One event on the page with the generation continuation corrected; every
      other event is handled as written. */
  function StepIntended(p: Page, e: Event, replies: Replies): (r: After)
    ensures Enabled(p, e) && (e.GenerateClicked? || (e.NextClicked? && p.activeStep == 1 && p.course.currentOutline.None?)) ==>
      r == HandleGenerateOutlineIntended(p, replies.generated)
    ensures !(Enabled(p, e) && (e.GenerateClicked? || (e.NextClicked? && p.activeStep == 1 && p.course.currentOutline.None?))) ==>
      r == Step(p, e, replies)
  {
    if Enabled(p, e) && (e.GenerateClicked? || (e.NextClicked? && p.activeStep == 1 && p.course.currentOutline.None?)) then
      HandleGenerateOutlineIntended(p, replies.generated)
    else
      Step(p, e, replies)
  }
}

=== FILE: course_builder_props.dfy ===
/** Invariants of the builder wizard over whole event sequences, and the
    consequences of reading the pre-dispatch `error` after generating an outline. */
module CourseBuilderProps {
  import opened Wrappers
  import opened CourseTypes
  import opened CourseSlice
  import opened CourseBuilder
  import UI = UiSlice

  /** What holds between events whichever continuation is used: the step is one of
      the three, the level is one of the three names, the required fields were
      filled to get past step 0 (the form is only editable there), and no request is
      left loading. */
  predicate WellFormed(p: Page)
  {
    && 0 <= p.activeStep <= LastStep
    && ParseLevel(p.info.level).Some?
    && (p.activeStep >= 1 ==> !MissingRequired(p.info))
    && !p.course.loading
  }

  /** The review step is only ever shown with an outline to review. */
  predicate OutlineReady(p: Page)
  {
    p.activeStep == LastStep ==> p.course.currentOutline.Some?
  }

  /** Opening the builder on any session store that is not loading satisfies both
      invariants, in either version of the mount; the first visit is one case. */
  lemma InitialPageInvariants(course: CourseState, ui: UI.UiState)
    requires !course.loading
    ensures WellFormed(OpenPage(course, ui)) && OutlineReady(OpenPage(course, ui))
    ensures WellFormed(OpenPageIntended(course, ui)) && OutlineReady(OpenPageIntended(course, ui))
    ensures WellFormed(InitialPage()) && OutlineReady(InitialPage())
  {
  }

  /** The as-written wizard keeps the step in range, the level valid and the
      required fields filled beyond step 0. */
  lemma StepPreservesWellFormed(p: Page, e: Event, replies: Replies)
    requires WellFormed(p)
    ensures WellFormed(Step(p, e, replies).page)
  {
  }

  /** The corrected wizard keeps the same invariant. */
  lemma StepIntendedPreservesWellFormed(p: Page, e: Event, replies: Replies)
    requires WellFormed(p)
    ensures WellFormed(StepIntended(p, e, replies).page)
  {
  }

  /** With the corrected continuation the review step is reached only with an outline. */
  lemma StepIntendedKeepsOutlineReady(p: Page, e: Event, replies: Replies)
    requires WellFormed(p) && OutlineReady(p)
    ensures OutlineReady(StepIntended(p, e, replies).page)
  {
  }

  /** The page after a sequence of events, each with its network replies, handled
      by the corrected wizard. */
  function RunIntended(p: Page, events: seq<(Event, Replies)>): Page
    decreases |events|
  {
    if |events| == 0 then p
    else RunIntended(StepIntended(p, events[0].0, events[0].1).page, events[1..])
  }

  /** Both invariants hold after any sequence of events handled by the corrected
      wizard, in particular from the freshly opened page. */
  lemma {:induction false} RunIntendedInvariants(p: Page, events: seq<(Event, Replies)>)
    requires WellFormed(p) && OutlineReady(p)
    ensures WellFormed(RunIntended(p, events)) && OutlineReady(RunIntended(p, events))
    decreases |events|
  {
    if |events| > 0 {
      var q := StepIntended(p, events[0].0, events[0].1).page;
      StepIntendedPreservesWellFormed(p, events[0].0, events[0].1);
      StepIntendedKeepsOutlineReady(p, events[0].0, events[0].1);
      RunIntendedInvariants(q, events[1..]);
    }
  }

  /** The page with a completed form on step 1, before any outline exists. */
  function FilledPageOnStep1(): (p: Page)
    ensures WellFormed(p) && OutlineReady(p)
    ensures p.activeStep == 1 && p.course.currentOutline.None? && p.course.error.None?
  {
    InitialPage().(activeStep := 1, info := CourseInfo("T", "D", "C", "beginner", "", "Topic"))
  }

  /** As written, a failed generation still advances to the review step, which then
      has no outline: the `error` consulted is the one from before the dispatch. */
  lemma StaleErrorAdvancesWithoutOutline()
    ensures var p := FilledPageOnStep1();
      var r := Step(p, NextClicked, Replies(Failed(None), Failed(None))).page;
      && WellFormed(p) && OutlineReady(p)
      && r.activeStep == LastStep && r.course.currentOutline.None?
      && !OutlineReady(r)
  {
  }

  /** As written, once a failure has left an error in the store, a successful
      retry does not advance: the first failure jumps to the review step, Back
      returns to step 1, and generating again fills in the outline but the step
      stays, because the handler still reads the earlier error. */
  lemma StaleErrorHoldsBackSuccessfulRetry(o: CourseOutline)
    ensures var fail := Replies(Failed(None), Failed(None));
      var failed := Step(FilledPageOnStep1(), GenerateClicked, fail).page;
      var back := Step(failed, BackClicked, fail).page;
      var retried := Step(back, GenerateClicked, Replies(Ok(o), Failed(None))).page;
      && back.activeStep == 1 && back.course.error.Some?
      && retried.course.currentOutline == Some(o) && retried.course.error.None?
      && retried.activeStep == 1
  {
  }

  /** An empty topic never reaches the generator: on step 0 Next neither moves nor
      sends anything; and on any well-formed page a generation request always
      carries a non-empty topic, in both versions of the wizard. */
  lemma EmptyTopicNeverReachesGateway(p: Page, e: Event, replies: Replies)
    ensures p.activeStep == 0 && p.info.topic == [] ==>
      var r := Step(p, NextClicked, replies);
      r.page.activeStep == 0 && r.request.None?
    ensures WellFormed(p) && Step(p, e, replies).request.Some? && Step(p, e, replies).request.value.GenerateOutlineRequest? ==>
      Step(p, e, replies).request.value.topic != []
    ensures WellFormed(p) && StepIntended(p, e, replies).request.Some? && StepIntended(p, e, replies).request.value.GenerateOutlineRequest? ==>
      StepIntended(p, e, replies).request.value.topic != []
  {
  }

  /** Whatever the wizard saves is a draft with the outline under review, a level
      that is one of the three names (so the unchecked cast is sound), and the
      category and level as tags. */
  lemma SavedCourseIsDraft(p: Page, e: Event, replies: Replies)
    requires WellFormed(p)
    requires Step(p, e, replies).request.Some? && Step(p, e, replies).request.value.CreateCourseRequest?
    ensures var d := Step(p, e, replies).request.value.draft;
      && p.course.currentOutline.Some? && d.outline == p.course.currentOutline.value
      && d.status == Draft
      && ParseLevel(d.level).Some?
      && d.tags == [p.info.category, p.info.level]
      && d.title != [] && d.description != [] && d.category != []
  {
  }

  /** With the corrected continuation, a generated outline reaches the review step
      unchanged. */
  lemma GeneratedOutlineReviewedUnchanged(p: Page, o: CourseOutline, created: Response<Course>)
    requires WellFormed(p) && p.activeStep == 1 && p.course.currentOutline.None?
    ensures var r := StepIntended(p, NextClicked, Replies(Ok(o), created)).page;
      r.activeStep == LastStep && r.course.currentOutline == Some(o)
  {
  }

  /** As written, a builder reopened in a session that already generated an outline
      never generates again: after step 0, Next on step 1 goes straight to the review
      step without a request, and Next there saves the previous outline. */
  lemma ReopenedBuilderSkipsGeneration(course: CourseState, ui: UI.UiState, replies: Replies)
    requires course.currentOutline.Some? && !course.loading
    ensures var p := OpenPage(course, ui).(info := FilledPageOnStep1().info);
      var step1 := Step(p, NextClicked, replies);
      var step2 := Step(step1.page, NextClicked, replies);
      var saved := Step(step2.page, NextClicked, replies);
      && step1.page.activeStep == 1 && step1.request.None?
      && step2.page.activeStep == LastStep && step2.request.None?
      && saved.request.Some? && saved.request.value.CreateCourseRequest?
      && saved.request.value.draft.outline == course.currentOutline.value
  {
  }

  /** With the intended mount, a reopened builder has to generate before it can
      review: Next on step 1 sends a generation request. */
  lemma ReopenedIntendedGeneratesFirst(course: CourseState, ui: UI.UiState, replies: Replies)
    requires !course.loading
    ensures var p := OpenPageIntended(course, ui).(info := FilledPageOnStep1().info);
      var step1 := StepIntended(p, NextClicked, replies);
      var step2 := StepIntended(step1.page, NextClicked, replies);
      && step1.page.activeStep == 1 && step1.request.None?
      && step2.request == Some(GenerateOutlineRequest(p.info.topic, p.info.level, p.info.estimatedDuration))
      && (step2.page.activeStep == LastStep <==> replies.generated.Ok?)
  {
  }
}

=== FILE: course_slice.dfy ===
/** The `course` slice of the client store: the cached course list, the current
    course, the outline being edited, and the loading/error status of the six
    asynchronous operations. Every case is a pure `State x Action -> State` step. */
module CourseSlice {
  import opened Wrappers
  import opened CourseTypes

  datatype CourseState = CourseState(
    courses: seq<Course>,
    currentCourse: Option<Course>,
    currentOutline: Option<CourseOutline>,
    loading: bool,
    error: Option<string>)

  /** The state before any action: nothing cached, nothing in flight. */
  function InitialState(): (s: CourseState)
    ensures s.courses == [] && s.currentCourse.None? && s.currentOutline.None?
    ensures !s.loading && s.error.None?
  {
    CourseState([], None, None, false, None)
  }

  /** The six asynchronous operations, each with a pending/fulfilled/rejected lifecycle. */
  datatype Op =
    | FetchCourses
    | FetchCourseById
    | CreateCourse
    | UpdateCourse
    | DeleteCourse
    | GenerateCourseOutline

  /** What the network call behind an operation produced: a payload, or a
      failure whose response may carry a server message. */
  datatype Response<+T> = Ok(value: T) | Failed(serverMessage: Option<string>)

  /** The fallback message each operation rejects with when the server sends none. */
  function DefaultMessage(op: Op): (m: string)
    ensures m != []
  {
    match op
    case FetchCourses => "Failed to fetch courses"
    case FetchCourseById => "Failed to fetch course"
    case CreateCourse => "Failed to create course"
    case UpdateCourse => "Failed to update course"
    case DeleteCourse => "Failed to delete course"
    case GenerateCourseOutline => "Failed to generate course outline"
  }

  /** `message || default`: an absent or empty server message is falsy, so the
      operation's own message is used instead; a rejection message is never empty. */
  function RejectionMessage(op: Op, serverMessage: Option<string>): (m: string)
    ensures m != []
    ensures serverMessage.Some? && serverMessage.value != [] ==> m == serverMessage.value
    ensures serverMessage.None? || serverMessage.value == [] ==> m == DefaultMessage(op)
  {
    if serverMessage.Some? && serverMessage.value != [] then serverMessage.value
    else DefaultMessage(op)
  }

  datatype Action =
    | SetCurrentCourse(course: Course)
    | ClearCurrentCourse
    | SetCurrentOutline(outline: CourseOutline)
    | UpdateModuleInOutline(moduleIndex: int, replacement: CourseModule)
    | AddModuleToOutline(added: CourseModule)
    | RemoveModuleFromOutline(removeIndex: int)
    | ClearError
    | Pending(op: Op)
    | FetchCoursesFulfilled(fetched: seq<Course>)
    | FetchCourseByIdFulfilled(course: Course)
    | CreateCourseFulfilled(course: Course)
    | UpdateCourseFulfilled(course: Course)
    | DeleteCourseFulfilled(deletedId: string)
    | GenerateCourseOutlineFulfilled(outline: CourseOutline)
    | Rejected(op: Op, message: string)

  /** The operation whose lifecycle an action belongs to, if any. */
  function LifecycleOp(a: Action): Option<Op>
  {
    match a
    case Pending(op) => Some(op)
    case Rejected(op, _) => Some(op)
    case FetchCoursesFulfilled(_) => Some(FetchCourses)
    case FetchCourseByIdFulfilled(_) => Some(FetchCourseById)
    case CreateCourseFulfilled(_) => Some(CreateCourse)
    case UpdateCourseFulfilled(_) => Some(UpdateCourse)
    case DeleteCourseFulfilled(_) => Some(DeleteCourse)
    case GenerateCourseOutlineFulfilled(_) => Some(GenerateCourseOutline)
    case _ => None
  }

  /** The `fetchCourses` thunk's settling action for a response. */
  function FetchCoursesThunk(resp: Response<seq<Course>>): (a: Action)
    ensures LifecycleOp(a) == Some(FetchCourses)
    ensures a.FetchCoursesFulfilled? <==> resp.Ok?
    ensures resp.Ok? ==> a.fetched == resp.value
    ensures resp.Failed? ==> a == Rejected(FetchCourses, RejectionMessage(FetchCourses, resp.serverMessage))
  {
    match resp
    case Ok(cs) => FetchCoursesFulfilled(cs)
    case Failed(m) => Rejected(FetchCourses, RejectionMessage(FetchCourses, m))
  }

  /** The `fetchCourseById` thunk's settling action for a response. */
  function FetchCourseByIdThunk(resp: Response<Course>): (a: Action)
    ensures LifecycleOp(a) == Some(FetchCourseById)
    ensures a.FetchCourseByIdFulfilled? <==> resp.Ok?
    ensures resp.Ok? ==> a.course == resp.value
    ensures resp.Failed? ==> a == Rejected(FetchCourseById, RejectionMessage(FetchCourseById, resp.serverMessage))
  {
    match resp
    case Ok(c) => FetchCourseByIdFulfilled(c)
    case Failed(m) => Rejected(FetchCourseById, RejectionMessage(FetchCourseById, m))
  }

  /** The `updateCourse` thunk's settling action for a response. */
  function UpdateCourseThunk(resp: Response<Course>): (a: Action)
    ensures LifecycleOp(a) == Some(UpdateCourse)
    ensures a.UpdateCourseFulfilled? <==> resp.Ok?
    ensures resp.Ok? ==> a.course == resp.value
    ensures resp.Failed? ==> a == Rejected(UpdateCourse, RejectionMessage(UpdateCourse, resp.serverMessage))
  {
    match resp
    case Ok(c) => UpdateCourseFulfilled(c)
    case Failed(m) => Rejected(UpdateCourse, RejectionMessage(UpdateCourse, m))
  }

  /** The `deleteCourse` thunk's settling action: on success it fulfils with the id
      it was asked to delete, since the delete call returns no course. */
  function DeleteCourseThunk(id: string, resp: Response<()>): (a: Action)
    ensures LifecycleOp(a) == Some(DeleteCourse)
    ensures a.DeleteCourseFulfilled? <==> resp.Ok?
    ensures resp.Ok? ==> a.deletedId == id
    ensures resp.Failed? ==> a == Rejected(DeleteCourse, RejectionMessage(DeleteCourse, resp.serverMessage))
  {
    match resp
    case Ok(_) => DeleteCourseFulfilled(id)
    case Failed(m) => Rejected(DeleteCourse, RejectionMessage(DeleteCourse, m))
  }

  /** The `generateCourseOutline` thunk's settling action for a response. */
  function GenerateCourseOutlineThunk(resp: Response<CourseOutline>): (a: Action)
    ensures LifecycleOp(a) == Some(GenerateCourseOutline)
    ensures a.GenerateCourseOutlineFulfilled? <==> resp.Ok?
    ensures resp.Ok? ==> a.outline == resp.value
    ensures resp.Failed? ==> a == Rejected(GenerateCourseOutline, RejectionMessage(GenerateCourseOutline, resp.serverMessage))
  {
    match resp
    case Ok(o) => GenerateCourseOutlineFulfilled(o)
    case Failed(m) => Rejected(GenerateCourseOutline, RejectionMessage(GenerateCourseOutline, m))
  }

  /** The `createCourse` thunk's settling action for a response. */
  function CreateCourseThunk(resp: Response<Course>): (a: Action)
    ensures LifecycleOp(a) == Some(CreateCourse)
    ensures a.CreateCourseFulfilled? <==> resp.Ok?
    ensures resp.Ok? ==> a.course == resp.value
    ensures resp.Failed? ==> a == Rejected(CreateCourse, RejectionMessage(CreateCourse, resp.serverMessage))
  {
    match resp
    case Ok(c) => CreateCourseFulfilled(c)
    case Failed(m) => Rejected(CreateCourse, RejectionMessage(CreateCourse, m))
  }

  // ----- list-cache helpers -----

  /** `findIndex(course => course.id === id)`: the first position holding `id`, or -1. */
  function FindIndexById(cs: seq<Course>, id: string): (r: int)
    ensures -1 <= r < |cs|
    ensures r == -1 <==> forall j :: 0 <= j < |cs| ==> cs[j].id != id
    ensures 0 <= r ==> cs[r].id == id && forall j :: 0 <= j < r ==> cs[j].id != id
  {
    if |cs| == 0 then -1
    else if cs[0].id == id then 0
    else
      var k := FindIndexById(cs[1..], id);
      if k == -1 then -1 else k + 1
  }

  /** Replaces the first course whose id is `c.id` by `c`; without a match the list is unchanged. */
  function ReplaceFirstById(cs: seq<Course>, c: Course): (r: seq<Course>)
    ensures |r| == |cs|
    ensures (forall j :: 0 <= j < |cs| ==> cs[j].id != c.id) ==> r == cs
    ensures forall k :: 0 <= k < |cs| && cs[k].id == c.id && (forall j :: 0 <= j < k ==> cs[j].id != c.id) ==>
      r[k] == c && forall j :: 0 <= j < |cs| && j != k ==> r[j] == cs[j]
  {
    var i := FindIndexById(cs, c.id);
    if i == -1 then cs else cs[i := c]
  }

  /** `filter(course => course.id !== id)`. */
  function WithoutId(cs: seq<Course>, id: string): (r: seq<Course>)
    ensures |r| <= |cs|
    ensures forall c :: c in r <==> c in cs && c.id != id
  {
    if |cs| == 0 then []
    else (if cs[0].id == id then [] else [cs[0]]) + WithoutId(cs[1..], id)
  }

  // ----- edits to the outline's module list -----

  /** `modules[i] = m` for an index inside the list. */
  function ReplaceModule(ms: seq<CourseModule>, i: int, m: CourseModule): (r: seq<CourseModule>)
    requires 0 <= i < |ms|
    ensures |r| == |ms| && r[i] == m
    ensures forall j :: 0 <= j < |ms| && j != i ==> r[j] == ms[j]
  {
    ms[i := m]
  }

  /** `modules.push(m)`: the new module is last, and the old ones keep their places. */
  function AppendModule(ms: seq<CourseModule>, m: CourseModule): (r: seq<CourseModule>)
    ensures |r| == |ms| + 1 && r[|ms|] == m
    ensures forall j :: 0 <= j < |ms| ==> r[j] == ms[j]
  {
    ms + [m]
  }

  /** `modules.splice(i, 1)` for an index inside the list: later modules move down
      one place and keep their `order` fields (nothing is renumbered). */
  function RemoveModule(ms: seq<CourseModule>, i: int): (r: seq<CourseModule>)
    requires 0 <= i < |ms|
    ensures |r| == |ms| - 1
    ensures forall j :: 0 <= j < i ==> r[j] == ms[j]
    ensures forall j :: i <= j < |r| ==> r[j] == ms[j + 1]
    ensures Orders(r) == Orders(ms)[..i] + Orders(ms)[i + 1..]
  {
    ms[..i] + ms[i + 1..]
  }

  // ----- synchronous reducers -----

  function SetCurrentCourseCase(s: CourseState, c: Course): (r: CourseState)
    ensures r.currentCourse == Some(c)
    ensures r.(currentCourse := s.currentCourse) == s
  {
    s.(currentCourse := Some(c))
  }

  function ClearCurrentCourseCase(s: CourseState): (r: CourseState)
    ensures r.currentCourse.None?
    ensures r.(currentCourse := s.currentCourse) == s
  {
    s.(currentCourse := None)
  }

  function SetCurrentOutlineCase(s: CourseState, o: CourseOutline): (r: CourseState)
    ensures r.currentOutline == Some(o)
    ensures r.(currentOutline := s.currentOutline) == s
  {
    s.(currentOutline := Some(o))
  }

  /** Replaces module `i` of the outline; a no-op when there is no outline. */
  function UpdateModuleCase(s: CourseState, i: int, m: CourseModule): (r: CourseState)
    requires s.currentOutline.Some? ==> 0 <= i < |s.currentOutline.value.modules|
    ensures s.currentOutline.None? ==> r == s
    ensures s.currentOutline.Some? ==>
      && r.currentOutline.Some?
      && |r.currentOutline.value.modules| == |s.currentOutline.value.modules|
      && r.currentOutline.value.modules[i] == m
      && (forall j :: 0 <= j < |s.currentOutline.value.modules| && j != i ==>
            r.currentOutline.value.modules[j] == s.currentOutline.value.modules[j])
      && r.currentOutline.value.(modules := s.currentOutline.value.modules) == s.currentOutline.value
    ensures r.(currentOutline := s.currentOutline) == s
  {
    match s.currentOutline
    case None => s
    case Some(o) => s.(currentOutline := Some(o.(modules := ReplaceModule(o.modules, i, m))))
  }

  /** Appends a module to the outline; a no-op when there is no outline. */
  function AddModuleCase(s: CourseState, m: CourseModule): (r: CourseState)
    ensures s.currentOutline.None? ==> r == s
    ensures s.currentOutline.Some? ==>
      && r.currentOutline.Some?
      && |r.currentOutline.value.modules| == |s.currentOutline.value.modules| + 1
      && r.currentOutline.value.modules[|s.currentOutline.value.modules|] == m
      && r.currentOutline.value.modules[..|s.currentOutline.value.modules|] == s.currentOutline.value.modules
      && r.currentOutline.value.(modules := s.currentOutline.value.modules) == s.currentOutline.value
    ensures r.(currentOutline := s.currentOutline) == s
  {
    match s.currentOutline
    case None => s
    case Some(o) => s.(currentOutline := Some(o.(modules := AppendModule(o.modules, m))))
  }

  /** Removes module `i` from the outline; a no-op when there is no outline. */
  function RemoveModuleCase(s: CourseState, i: int): (r: CourseState)
    requires s.currentOutline.Some? ==> 0 <= i < |s.currentOutline.value.modules|
    ensures s.currentOutline.None? ==> r == s
    ensures s.currentOutline.Some? ==>
      && r.currentOutline.Some?
      && |r.currentOutline.value.modules| == |s.currentOutline.value.modules| - 1
      && (forall j :: 0 <= j < i ==> r.currentOutline.value.modules[j] == s.currentOutline.value.modules[j])
      && (forall j :: i <= j < |r.currentOutline.value.modules| ==>
            r.currentOutline.value.modules[j] == s.currentOutline.value.modules[j + 1])
      && r.currentOutline.value.(modules := s.currentOutline.value.modules) == s.currentOutline.value
    ensures r.(currentOutline := s.currentOutline) == s
  {
    match s.currentOutline
    case None => s
    case Some(o) => s.(currentOutline := Some(o.(modules := RemoveModule(o.modules, i))))
  }

  function ClearErrorCase(s: CourseState): (r: CourseState)
    ensures r.error.None?
    ensures r.(error := s.error) == s
  {
    s.(error := None)
  }

  // ----- asynchronous lifecycle reducers -----

  /** Every `*.pending` case: loading starts and the last error is cleared; the data stays. */
  function PendingCase(s: CourseState): (r: CourseState)
    ensures r.loading && r.error.None?
    ensures r.courses == s.courses && r.currentCourse == s.currentCourse
    ensures r.currentOutline == s.currentOutline
  {
    s.(loading := true, error := None)
  }

  /** Every `*.rejected` case: loading stops and the message is recorded; the data stays. */
  function RejectedCase(s: CourseState, message: string): (r: CourseState)
    ensures !r.loading && r.error == Some(message)
    ensures r.courses == s.courses && r.currentCourse == s.currentCourse
    ensures r.currentOutline == s.currentOutline
  {
    s.(loading := false, error := Some(message))
  }

  /** `fetchCourses.fulfilled`: the fetched list replaces the cache. */
  function FetchCoursesFulfilledCase(s: CourseState, cs: seq<Course>): (r: CourseState)
    ensures !r.loading && r.courses == cs
    ensures r.(loading := s.loading, courses := s.courses) == s
  {
    s.(loading := false, courses := cs)
  }

  /** `fetchCourseById.fulfilled`: the fetched course becomes current; the list is untouched. */
  function FetchCourseByIdFulfilledCase(s: CourseState, c: Course): (r: CourseState)
    ensures !r.loading && r.currentCourse == Some(c)
    ensures r.(loading := s.loading, currentCourse := s.currentCourse) == s
  {
    s.(loading := false, currentCourse := Some(c))
  }

  /** `createCourse.fulfilled`: the created course is appended and becomes current. */
  function CreateCourseFulfilledCase(s: CourseState, c: Course): (r: CourseState)
    ensures !r.loading && r.currentCourse == Some(c)
    ensures |r.courses| == |s.courses| + 1 && r.courses[|s.courses|] == c
    ensures r.courses[..|s.courses|] == s.courses
    ensures r.(loading := s.loading, courses := s.courses, currentCourse := s.currentCourse) == s
  {
    s.(loading := false, courses := s.courses + [c], currentCourse := Some(c))
  }

  /** `updateCourse.fulfilled`: the first cached course with the same id is replaced
      in place (the list is unchanged if none has it), and the payload always
      becomes current. */
  function UpdateCourseFulfilledCase(s: CourseState, c: Course): (r: CourseState)
    ensures !r.loading && r.currentCourse == Some(c)
    ensures |r.courses| == |s.courses|
    ensures (forall j :: 0 <= j < |s.courses| ==> s.courses[j].id != c.id) ==> r.courses == s.courses
    ensures forall k :: 0 <= k < |s.courses| && s.courses[k].id == c.id
                        && (forall j :: 0 <= j < k ==> s.courses[j].id != c.id) ==>
      r.courses[k] == c && forall j :: 0 <= j < |s.courses| && j != k ==> r.courses[j] == s.courses[j]
    ensures r.(loading := s.loading, courses := s.courses, currentCourse := s.currentCourse) == s
  {
    s.(loading := false, courses := ReplaceFirstById(s.courses, c), currentCourse := Some(c))
  }

  /** `deleteCourse.fulfilled`: every cached course with the id goes, and the current
      course is cleared exactly when it has that id. */
  function DeleteCourseFulfilledCase(s: CourseState, id: string): (r: CourseState)
    ensures !r.loading
    ensures forall c :: c in r.courses <==> c in s.courses && c.id != id
    ensures s.currentCourse.Some? && s.currentCourse.value.id == id ==> r.currentCourse.None?
    ensures !(s.currentCourse.Some? && s.currentCourse.value.id == id) ==> r.currentCourse == s.currentCourse
    ensures r.(loading := s.loading, courses := s.courses, currentCourse := s.currentCourse) == s
  {
    var cleared := if s.currentCourse.Some? && s.currentCourse.value.id == id then None else s.currentCourse;
    s.(loading := false, courses := WithoutId(s.courses, id), currentCourse := cleared)
  }

  /** `generateCourseOutline.fulfilled`: the generated outline becomes the edit buffer. */
  function GenerateOutlineFulfilledCase(s: CourseState, o: CourseOutline): (r: CourseState)
    ensures !r.loading && r.currentOutline == Some(o)
    ensures r.(loading := s.loading, currentOutline := s.currentOutline) == s
  {
    s.(loading := false, currentOutline := Some(o))
  }

  /** The index-carrying edits need an index inside the module list when an
      outline is present (out-of-range JavaScript array semantics are not modelled). */
  predicate Admissible(s: CourseState, a: Action)
  {
    match a
    case UpdateModuleInOutline(i, _) =>
      s.currentOutline.Some? ==> 0 <= i < |s.currentOutline.value.modules|
    case RemoveModuleFromOutline(i) =>
      s.currentOutline.Some? ==> 0 <= i < |s.currentOutline.value.modules|
    case _ => true
  }

  /** The slice reducer. */
  function Reduce(s: CourseState, a: Action): CourseState
    requires Admissible(s, a)
  {
    match a
    case SetCurrentCourse(c) => SetCurrentCourseCase(s, c)
    case ClearCurrentCourse => ClearCurrentCourseCase(s)
    case SetCurrentOutline(o) => SetCurrentOutlineCase(s, o)
    case UpdateModuleInOutline(i, m) => UpdateModuleCase(s, i, m)
    case AddModuleToOutline(m) => AddModuleCase(s, m)
    case RemoveModuleFromOutline(i) => RemoveModuleCase(s, i)
    case ClearError => ClearErrorCase(s)
    case Pending(_) => PendingCase(s)
    case FetchCoursesFulfilled(cs) => FetchCoursesFulfilledCase(s, cs)
    case FetchCourseByIdFulfilled(c) => FetchCourseByIdFulfilledCase(s, c)
    case CreateCourseFulfilled(c) => CreateCourseFulfilledCase(s, c)
    case UpdateCourseFulfilled(c) => UpdateCourseFulfilledCase(s, c)
    case DeleteCourseFulfilled(id) => DeleteCourseFulfilledCase(s, id)
    case GenerateCourseOutlineFulfilled(o) => GenerateOutlineFulfilledCase(s, o)
    case Rejected(_, m) => RejectedCase(s, m)
  }
}

=== FILE: course_slice_props.dfy ===
/** Properties of the course slice that relate several cases or several steps. */
module CourseSliceProps {
  import opened Wrappers
  import opened CourseTypes
  import opened CourseSlice

  // ----- the delete filter -----

  /** Filtering distributes over concatenation, so the courses that survive a delete
      keep their relative order. */
  lemma {:induction false} WithoutIdAppend(a: seq<Course>, b: seq<Course>, id: string)
    ensures WithoutId(a + b, id) == WithoutId(a, id) + WithoutId(b, id)
    decreases |a|
  {
    if |a| == 0 {
      assert a + b == b;
    } else {
      assert (a + b)[0] == a[0];
      assert (a + b)[1..] == a[1..] + b;
      WithoutIdAppend(a[1..], b, id);
    }
  }

  /** Filtering out an id no course has leaves the list as it was. */
  lemma {:induction false} WithoutIdNoMatch(cs: seq<Course>, id: string)
    requires forall j :: 0 <= j < |cs| ==> cs[j].id != id
    ensures WithoutId(cs, id) == cs
    decreases |cs|
  {
    if |cs| > 0 {
      WithoutIdNoMatch(cs[1..], id);
      assert [cs[0]] + cs[1..] == cs;
    }
  }

  /** Deleting the same id twice is the same as deleting it once. */
  lemma DeleteIdempotent(s: CourseState, id: string)
    ensures DeleteCourseFulfilledCase(DeleteCourseFulfilledCase(s, id), id)
         == DeleteCourseFulfilledCase(s, id)
  {
    var r := DeleteCourseFulfilledCase(s, id);
    forall j | 0 <= j < |r.courses|
      ensures r.courses[j].id != id
    {
      assert r.courses[j] in r.courses;
    }
    WithoutIdNoMatch(r.courses, id);
  }

  /** Splitting the list anywhere, the survivors of each part appear in the same order. */
  lemma DeleteKeepsRelativeOrder(s: CourseState, id: string, i: nat)
    requires i <= |s.courses|
    ensures DeleteCourseFulfilledCase(s, id).courses
         == WithoutId(s.courses[..i], id) + WithoutId(s.courses[i..], id)
  {
    assert s.courses == s.courses[..i] + s.courses[i..];
    WithoutIdAppend(s.courses[..i], s.courses[i..], id);
  }

  /** Deleting a freshly created course (whose id was new to the list) restores the
      list and leaves no current course. */
  lemma CreateThenDeleteRestoresList(s: CourseState, c: Course)
    requires forall j :: 0 <= j < |s.courses| ==> s.courses[j].id != c.id
    ensures DeleteCourseFulfilledCase(CreateCourseFulfilledCase(s, c), c.id)
         == s.(loading := false, currentCourse := None)
  {
    WithoutIdAppend(s.courses, [c], c.id);
    WithoutIdNoMatch(s.courses, c.id);
    assert WithoutId([c], c.id) == [];
  }

  // ----- the update replacement -----

  /** After an update the payload is cached exactly when some cached course already
      had its id. */
  lemma UpdateCachesIffIdKnown(s: CourseState, c: Course)
    ensures c in UpdateCourseFulfilledCase(s, c).courses
        <==> exists k :: 0 <= k < |s.courses| && s.courses[k].id == c.id
  {
    var i := FindIndexById(s.courses, c.id);
    if i >= 0 {
      assert UpdateCourseFulfilledCase(s, c).courses[i] == c;
    }
  }

  /** Applying the same update twice is the same as applying it once. */
  lemma UpdateIdempotent(s: CourseState, c: Course)
    ensures UpdateCourseFulfilledCase(UpdateCourseFulfilledCase(s, c), c)
         == UpdateCourseFulfilledCase(s, c)
  {
  }

  // ----- outline edits -----

  /** Removing the module just appended gives back the original state. */
  lemma AddThenRemoveLastRestores(s: CourseState, m: CourseModule)
    requires s.currentOutline.Some?
    ensures RemoveModuleCase(AddModuleCase(s, m), |s.currentOutline.value.modules|) == s
  {
    var ms := s.currentOutline.value.modules;
    assert (ms + [m])[..|ms|] + (ms + [m])[|ms| + 1..] == ms;
  }

  /** Writing the old module back at the same index undoes an update. */
  lemma UpdateModuleUndo(s: CourseState, i: int, m: CourseModule)
    requires s.currentOutline.Some? && 0 <= i < |s.currentOutline.value.modules|
    ensures UpdateModuleCase(UpdateModuleCase(s, i, m), i, s.currentOutline.value.modules[i]) == s
  {
    var ms := s.currentOutline.value.modules;
    assert ms[i := m][i := ms[i]] == ms;
  }

  function ModuleWithOrder(k: int): CourseModule
  {
    CourseModule("", "", "", k, [], None)
  }

  /** Removing the middle of three modules ordered 0, 1, 2 leaves orders 0 and 2:
      the reducer does not renumber. */
  lemma RemoveDoesNotRenumber()
    ensures Orders(RemoveModule([ModuleWithOrder(0), ModuleWithOrder(1), ModuleWithOrder(2)], 1)) == [0, 2]
  {
  }

  // ----- the asynchronous lifecycle -----

  /** All six pending cases act alike: loading on, error cleared, data untouched. */
  lemma PendingUniform(s: CourseState, op: Op, op': Op)
    ensures Reduce(s, Pending(op)) == Reduce(s, Pending(op'))
    ensures Reduce(s, Pending(op)) == s.(loading := true, error := None)
  {
  }

  /** A rejected attempt leaves the cached data as it was before the attempt began. */
  lemma PendingThenRejected(s: CourseState, op: Op, serverMessage: Option<string>)
    ensures var r := Reduce(Reduce(s, Pending(op)), Rejected(op, RejectionMessage(op, serverMessage)));
      && r.courses == s.courses && r.currentCourse == s.currentCourse
      && r.currentOutline == s.currentOutline
      && !r.loading && r.error.Some? && r.error.value != []
  {
  }

  /** Fulfilled cases never touch `error`; after a pending case that cleared it, a
      fulfilled one ends with no error and loading off. */
  lemma FulfilledLeavesError(s: CourseState, a: Action)
    requires LifecycleOp(a).Some? && !a.Pending? && !a.Rejected?
    ensures Reduce(s, a).error == s.error && !Reduce(s, a).loading
    ensures Reduce(Reduce(s, Pending(LifecycleOp(a).value)), a).error.None?
  {
    var p := Reduce(s, Pending(LifecycleOp(a).value));
    assert p == s.(loading := true, error := None);
  }

  /** No action ever drops the outline buffer once there is one. */
  lemma OutlineNeverCleared(s: CourseState, a: Action)
    requires Admissible(s, a) && s.currentOutline.Some?
    ensures Reduce(s, a).currentOutline.Some?
  {
  }

  /** Only outline actions and a fulfilled generation change the outline buffer. */
  lemma OutlineFrame(s: CourseState, a: Action)
    requires Admissible(s, a)
    requires !a.SetCurrentOutline? && !a.UpdateModuleInOutline? && !a.AddModuleToOutline?
    requires !a.RemoveModuleFromOutline? && !a.GenerateCourseOutlineFulfilled?
    ensures Reduce(s, a).currentOutline == s.currentOutline
  {
  }

  // ----- thunks through the store -----

  /** A failed attempt of `op`, once its pending case and the thunk's rejection
      have been applied: loading off, the mapped message stored, nothing else changed. */
  predicate FailureSettled(s: CourseState, op: Op, a: Action, serverMessage: Option<string>)
    requires Admissible(PendingCase(s), a)
  {
    Reduce(Reduce(s, Pending(op)), a) == s.(loading := false, error := Some(RejectionMessage(op, serverMessage)))
  }

  /** Every thunk's failure reaches the store as its own rejection message, with the
      cached data exactly as before the attempt. */
  lemma ThunkFailuresReachStore(s: CourseState, id: string, serverMessage: Option<string>)
    ensures FailureSettled(s, FetchCourses, FetchCoursesThunk(Failed(serverMessage)), serverMessage)
    ensures FailureSettled(s, FetchCourseById, FetchCourseByIdThunk(Failed(serverMessage)), serverMessage)
    ensures FailureSettled(s, CreateCourse, CreateCourseThunk(Failed(serverMessage)), serverMessage)
    ensures FailureSettled(s, UpdateCourse, UpdateCourseThunk(Failed(serverMessage)), serverMessage)
    ensures FailureSettled(s, DeleteCourse, DeleteCourseThunk(id, Failed(serverMessage)), serverMessage)
    ensures FailureSettled(s, GenerateCourseOutline, GenerateCourseOutlineThunk(Failed(serverMessage)), serverMessage)
  {
  }

  /** Every thunk's success reaches the store as its own fulfilled case, applied to
      the state its pending case left (loading on, error cleared). */
  lemma ThunkSuccessesReachStore(s: CourseState, cs: seq<Course>, c: Course, id: string, o: CourseOutline)
    ensures Reduce(Reduce(s, Pending(FetchCourses)), FetchCoursesThunk(Ok(cs)))
         == FetchCoursesFulfilledCase(PendingCase(s), cs)
    ensures Reduce(Reduce(s, Pending(FetchCourseById)), FetchCourseByIdThunk(Ok(c)))
         == FetchCourseByIdFulfilledCase(PendingCase(s), c)
    ensures Reduce(Reduce(s, Pending(CreateCourse)), CreateCourseThunk(Ok(c)))
         == CreateCourseFulfilledCase(PendingCase(s), c)
    ensures Reduce(Reduce(s, Pending(UpdateCourse)), UpdateCourseThunk(Ok(c)))
         == UpdateCourseFulfilledCase(PendingCase(s), c)
    ensures Reduce(Reduce(s, Pending(DeleteCourse)), DeleteCourseThunk(id, Ok(())))
         == DeleteCourseFulfilledCase(PendingCase(s), id)
    ensures Reduce(Reduce(s, Pending(GenerateCourseOutline)), GenerateCourseOutlineThunk(Ok(o)))
         == GenerateOutlineFulfilledCase(PendingCase(s), o)
  {
    var p := PendingCase(s);
    assert Reduce(s, Pending(FetchCourses)) == p;
    assert FetchCoursesThunk(Ok(cs)) == FetchCoursesFulfilled(cs);
    assert Reduce(p, FetchCoursesFulfilled(cs)) == FetchCoursesFulfilledCase(p, cs);
    assert Reduce(s, Pending(FetchCourseById)) == p;
    assert FetchCourseByIdThunk(Ok(c)) == FetchCourseByIdFulfilled(c);
    assert Reduce(p, FetchCourseByIdFulfilled(c)) == FetchCourseByIdFulfilledCase(p, c);
    assert Reduce(s, Pending(CreateCourse)) == p;
    assert CreateCourseThunk(Ok(c)) == CreateCourseFulfilled(c);
    assert Reduce(p, CreateCourseFulfilled(c)) == CreateCourseFulfilledCase(p, c);
    assert Reduce(s, Pending(UpdateCourse)) == p;
    assert UpdateCourseThunk(Ok(c)) == UpdateCourseFulfilled(c);
    assert Reduce(p, UpdateCourseFulfilled(c)) == UpdateCourseFulfilledCase(p, c);
    assert Reduce(s, Pending(DeleteCourse)) == p;
    assert DeleteCourseThunk(id, Ok(())) == DeleteCourseFulfilled(id);
    assert Reduce(p, DeleteCourseFulfilled(id)) == DeleteCourseFulfilledCase(p, id);
    assert Reduce(s, Pending(GenerateCourseOutline)) == p;
    assert GenerateCourseOutlineThunk(Ok(o)) == GenerateCourseOutlineFulfilled(o);
    assert Reduce(p, GenerateCourseOutlineFulfilled(o)) == GenerateOutlineFulfilledCase(p, o);
  }

}

=== FILE: course_types.dfy ===
/** The course record tree of the authoring application:
    Course -> CourseOutline -> CourseModule -> CourseLesson / CourseAssessment -> question.
    Optional fields are `Option`s; JavaScript `number` fields are `int`. */
module CourseTypes {
  import opened Wrappers

  /** `level` of a course: exactly one of three values. */
  datatype Level = Beginner | Intermediate | Advanced

  /** `status` of a course: exactly one of three values. */
  datatype Status = Draft | Published | Archived

  datatype LessonType = VideoLesson | TextLesson | InteractiveLesson

  datatype ResourceType = LinkResource | PdfResource | ImageResource | VideoResource

  datatype AssessmentType = Quiz | Assignment | Project

  datatype QuestionType = MultipleChoice | TrueFalse | ShortAnswer | Essay

  /** `correctAnswer` is either one string or a list of strings. */
  datatype Answer = SingleAnswer(answer: string) | AnswerList(answers: seq<string>)

  datatype CourseLessonResource = CourseLessonResource(
    title: string,
    kind: ResourceType,
    url: string,
    description: Option<string>)

  datatype CourseLesson = CourseLesson(
    title: string,
    content: string,
    kind: LessonType,
    duration: string,
    order: int,
    resources: Option<seq<CourseLessonResource>>)

  datatype CourseAssessmentQuestion = CourseAssessmentQuestion(
    question: string,
    kind: QuestionType,
    options: Option<seq<string>>,
    correctAnswer: Option<Answer>,
    points: int)

  datatype CourseAssessment = CourseAssessment(
    title: string,
    description: string,
    kind: AssessmentType,
    duration: string,
    passingScore: Option<int>,
    questions: Option<seq<CourseAssessmentQuestion>>)

  /** A module carries its own explicit `order`; its lessons are an ordered sequence. */
  datatype CourseModule = CourseModule(
    title: string,
    description: string,
    duration: string,
    order: int,
    lessons: seq<CourseLesson>,
    assessments: Option<seq<CourseAssessment>>)

  datatype CourseOutline = CourseOutline(
    title: string,
    description: string,
    learningObjectives: seq<string>,
    targetAudience: Option<string>,
    prerequisites: Option<seq<string>>,
    modules: seq<CourseModule>)

  datatype Course = Course(
    id: string,
    title: string,
    description: string,
    category: string,
    level: Level,
    estimatedDuration: string,
    outline: CourseOutline,
    thumbnail: Option<string>,
    createdBy: string,
    status: Status,
    tags: seq<string>,
    createdAt: string,
    updatedAt: string)

  /** The string literal a level is written as. */
  function LevelName(l: Level): string
  {
    match l
    case Beginner => "beginner"
    case Intermediate => "intermediate"
    case Advanced => "advanced"
  }

  /** Reads a level back from its string literal; any other string is not a level. */
  function ParseLevel(s: string): (r: Option<Level>)
    ensures r.Some? <==> s == "beginner" || s == "intermediate" || s == "advanced"
    ensures r.Some? ==> LevelName(r.value) == s
  {
    if s == "beginner" then Some(Beginner)
    else if s == "intermediate" then Some(Intermediate)
    else if s == "advanced" then Some(Advanced)
    else None
  }

  /** Every level survives the trip through its string literal, so the
      three literals are distinct. */
  lemma LevelNameRoundTrip(l: Level)
    ensures ParseLevel(LevelName(l)) == Some(l)
    ensures forall m: Level :: LevelName(m) == LevelName(l) ==> m == l
  {
  }

  /** The `order` fields of a module list, position by position. */
  function Orders(ms: seq<CourseModule>): (os: seq<int>)
    ensures |os| == |ms|
    ensures forall j :: 0 <= j < |ms| ==> os[j] == ms[j].order
  {
    seq(|ms|, j requires 0 <= j < |ms| => ms[j].order)
  }
}

=== FILE: ui_slice.dfy ===
/** The `ui` slice of the client store: whether the navigation drawer is open and
    the single notification (snackbar) the application shows. */
module UiSlice {

  datatype NotificationType = Success | Info | Warning | Error

  datatype Notification = Notification(open: bool, message: string, kind: NotificationType)

  datatype UiState = UiState(drawerOpen: bool, notification: Notification)

  /** Drawer closed; notification closed, empty, of type info. */
  function InitialState(): (s: UiState)
    ensures !s.drawerOpen
    ensures !s.notification.open && s.notification.message == [] && s.notification.kind == Info
  {
    UiState(false, Notification(false, "", Info))
  }

  /** Opens or closes the drawer; the notification is untouched. */
  function SetDrawerOpen(s: UiState, open: bool): (r: UiState)
    ensures r.drawerOpen == open
    ensures r.notification == s.notification
  {
    s.(drawerOpen := open)
  }

  /** Shows a notification, replacing whatever message and type were there. */
  function ShowNotification(s: UiState, message: string, kind: NotificationType): (r: UiState)
    ensures r.notification.open
    ensures r.notification.message == message && r.notification.kind == kind
    ensures r.drawerOpen == s.drawerOpen
  {
    s.(notification := Notification(true, message, kind))
  }

  /** Closes the notification; its message and type are kept, and so is the drawer. */
  function HideNotification(s: UiState): (r: UiState)
    ensures !r.notification.open
    ensures r.notification.message == s.notification.message
    ensures r.notification.kind == s.notification.kind
    ensures r.drawerOpen == s.drawerOpen
  {
    s.(notification := s.notification.(open := false))
  }

  /** Hiding twice is hiding once. */
  lemma HideIdempotent(s: UiState)
    ensures HideNotification(HideNotification(s)) == HideNotification(s)
  {
  }

  /** Hiding undoes showing except that the shown message and type remain. */
  lemma ShowThenHide(s: UiState, message: string, kind: NotificationType)
    ensures HideNotification(ShowNotification(s, message, kind))
         == s.(notification := Notification(false, message, kind))
  {
  }

  /** The drawer and the notification are independent: their updates commute. */
  lemma DrawerCommutesWithNotification(s: UiState, open: bool, message: string, kind: NotificationType)
    ensures SetDrawerOpen(ShowNotification(s, message, kind), open)
         == ShowNotification(SetDrawerOpen(s, open), message, kind)
    ensures SetDrawerOpen(HideNotification(s), open) == HideNotification(SetDrawerOpen(s, open))
  {
  }

  /** The last notification shown wins. */
  lemma LastShowWins(s: UiState, m1: string, k1: NotificationType, m2: string, k2: NotificationType)
    ensures ShowNotification(ShowNotification(s, m1, k1), m2, k2) == ShowNotification(s, m2, k2)
  {
  }
}

=== FILE: wrappers.dfy ===
/** Optional values: the model's rendering of TypeScript's `T | null` and of
    optional (`?`) record fields. */
module Wrappers {

  datatype Option<+T> = None | Some(value: T)
}
